=== FILE: README.md ===
# Chat room membership and event handlers, in Dafny

A model of the server core of a multi-room chat relay (node-chat-app). There are
two parts:

- **The membership registry** (`src/utils/users.js`). This is the ordered list
  of `{ id, username, room }` records. `addUser` normalises the name and room
  (trim, then lower-case). It refuses blank values and refuses a (room,
  username) pair that is already taken; otherwise it appends the record.
  `removeUser` splices out the first record of a connection. `getUser` finds
  that record. `getUsersInRoom` lists a room's records in insertion order.
- **The connection event handlers** (`src/index.js`). These are `join`,
  `sendMessage`, `sendLocation` and `disconnect`. Each is a pure transition
  from (registry, connection id, event) to (registry, acknowledgement, outbound
  events). Every outbound event carries its audience: the sender only, the
  room except the sender, or the whole room.

Files:

- `wrappers.dfy`: `Option` and `Result`.
- `normalize.dfy`: `trim()` over ECMAScript's whitespace set, and ASCII
  `toLowerCase()`.
- `users.dfy`: the registry, its invariant, and a room scenario.
- `chat.dfy`: the handlers, the dispatcher `Handle`, and `Run`, which processes
  a sequence of events one at a time on the single event loop. The join handler
  is modelled as written (`Chat.OnJoin`) and as intended (`Chat.OnJoinIntended`,
  dispatched by `Chat.HandleIntended`); they differ only in the join notice, as
  explained under Findings.

The registry invariant `Users.Valid` has two parts:

- every record is stored in normal form (non-empty, trimmed, lower-case);
- no two records share a (room, username) pair.

Every handler preserves it, and so does every runnable event sequence.

Two behaviours of the code differ from what a reader of the protocol might expect; the model follows the code:

- `roomData` carries the room's full `{ id, username, room }` records, not just
  user names (`src/index.js:37`, `79`).
- `addUser` never checks `id`. One connection can therefore hold two records,
  and `removeUser` then removes only the first (`Users.AddUserAcceptsRepeatedId`,
  `Users.RepeatedIdOutlivesRemove`). "`getUser` finds nothing after
  `removeUser`" holds exactly when that connection held at most one record
  (`Users.GetAfterRemove`).

## Model

| member | source | states |
|---|---|---|
| Normalize.LeadingSpaces | src/utils/users.js:10 | the count covers exactly the whitespace prefix: every counted character is trimmable and the next one is not |
| Normalize.TrailingSpaces | src/utils/users.js:10 | the count covers exactly the whitespace suffix: every counted character is trimmable and the one before is not |
| Normalize.Trim | src/utils/users.js:10 | trimming never lengthens a string |
| Normalize.TrimSpec | src/utils/users.js:10-11 | `trim()` cuts only whitespace from either end and leaves a slice that neither starts nor ends with whitespace; it is empty exactly when the input is all whitespace |
| Normalize.LowerChar | src/utils/users.js:10-11 | a folded character is never an upper-case ASCII letter; other characters are unchanged; `A`..`Z` map to `a`..`z` |
| Normalize.Lower | src/utils/users.js:10-11 | lower-casing keeps the length |
| Normalize.Norm | src/utils/users.js:10-11 | the normalised string is no longer than the input |
| Normalize.NormSpec | src/utils/users.js:10-11 | the normalised string has no surrounding whitespace and no upper-case letter, and is empty exactly when the input is blank |
| Normalize.NormalIffFixed | src/utils/users.js:10-11 | the normal forms are exactly the strings that normalisation leaves unchanged |
| Normalize.NormIdempotent | src/utils/users.js:54 | normalising twice gives the same result as normalising once |
| Normalize.TrimOfTrimmed | src/utils/users.js:10 | a string with no whitespace at either end is its own trim |
| Normalize.LowerOfLower | src/utils/users.js:10 | a string with no upper-case letter is its own lower-case form |
| Normalize.PaddedCapitalisedName | src/utils/users.js:10 | " Bob " and "bob" normalise to the same name, "bob" |
| Normalize.CapitalisedRoom | src/utils/users.js:11 | "Room1" and "room1" normalise to the same room, "room1" |
| Users.FindIdentity | src/utils/users.js:21-23 | a hit is a registered record with that room and name; a miss happens exactly when no record has that pair |
| Users.IndexOfId | src/utils/users.js:39-41 | -1 exactly when no record has the id; otherwise the position of the first record with that id |
| Users.AddUser | src/utils/users.js:8-36 | refuses with Required exactly when the normalised name or room is empty, and with InUse exactly when both are non-empty and the pair is taken; on refusal the registry is unchanged; on success it returns the record with the id and the normalised name and room, appended after all earlier records |
| Users.AddError.Text | src/utils/users.js:14-30 | the two refusals are reported with distinct strings: "Username and room are required." for a blank field and "Username is in use." for a taken pair |
| Users.AddUserRejectsBlank | src/utils/users.js:14-18 | "Username and room are required." is returned exactly for a name or room that is empty or all whitespace, and the registry is left unchanged |
| Users.RemoveUser | src/utils/users.js:38-46 | nothing is returned, and the registry is unchanged, exactly when no record has the id; otherwise the first record with the id is returned and removed, and the others keep their order |
| Users.GetUser | src/utils/users.js:48-50 | None exactly when no record has the id; otherwise the first record with that id |
| Users.GetUsersInRoom | src/utils/users.js:52-57 | although the query is re-normalised inside the filter callback, the result is the members of the normalised room |
| Users.Members | src/utils/users.js:53-56 | the reference room filter is no longer than the registry; `Users.MembersCounts` and `Users.MembersOfConcat` characterise it |
| Users.MembersCounts | src/utils/users.js:52-57 | the roster holds each record of the queried room as often as it is registered, and no other record |
| Users.MemberIsRegistered | src/utils/users.js:53-56 | every roster entry is a registered record of that room |
| Users.MembersOfConcat | src/utils/users.js:53 | the roster keeps insertion order: the roster of a concatenation is the concatenation of the rosters |
| Users.RosterAfterAdd | src/utils/users.js:33-35 | after a successful add, the new record is last in its room's roster, and every other roster is unchanged |
| Users.RosterAfterRemove | src/utils/users.js:43-45 | after a successful remove, the removed record's room has one member fewer, and every other roster keeps its size |
| Users.AddUserKeepsUnique | src/utils/users.js:21-34 | `addUser` never creates two records with the same (room, username) pair |
| Users.RemoveAtKeepsUnique | src/utils/users.js:44 | splicing out one record keeps (room, username) pairs unique |
| Users.RemoveUserKeepsUnique | src/utils/users.js:38-46 | `removeUser` keeps (room, username) pairs unique |
| Users.AddUserKeepsValid | src/utils/users.js:8-36 | `addUser` keeps the registry invariant: every record in normal form, and unique pairs |
| Users.AppendKeepsCanonical | src/utils/users.js:33-34 | appending a record in normal form keeps every record in normal form |
| Users.RemoveAtKeepsCanonical | src/utils/users.js:44 | splicing out one record keeps the others in normal form |
| Users.RemoveUserKeepsValid | src/utils/users.js:38-46 | `removeUser` keeps the registry invariant |
| Users.RemoveTakesWhatGetFinds | src/utils/users.js:38-50 | the record `removeUser` removes is the one `getUser` finds |
| Users.GetAfterRemove | src/utils/users.js:38-50 | `getUser` finds nothing for a connection after `removeUser` exactly when that connection held at most one record, whatever other connections hold |
| Users.AddUserAcceptsRepeatedId | src/utils/users.js:21-35 | a free, non-blank name is accepted from a connection that already has a record, which leaves two records with the same id |
| Users.RepeatedIdOutlivesRemove | src/utils/users.js:39-49 | when a connection has two records, `getUser` still finds the second after `removeUser` |
| Users.SameSpellingConflicts | src/utils/users.js:10-30 | once one spelling is registered, any spelling with the same normal form for both name and room is refused as "Username is in use." |
| Users.PaddedNameConflicts | src/utils/users.js:10-30 | after " Bob " joins "Room1", "bob" in "room1" is refused as in use |
| Users.CapitalisedSpellings | src/utils/users.js:10-11 | "ALICE" and "General" normalise to "alice" and "general" |
| Users.AliceJoins | src/utils/users.js:32-35 | alice's join to "general" on an empty registry succeeds, and she is the room's only member |
| Users.AliceTwiceRefused | src/utils/users.js:21-30 | once alice is registered, "ALICE" in "General" is refused as in use |
| Users.BobJoins | src/utils/users.js:32-35 | bob joins "general" after alice, and the roster lists alice, then bob |
| Users.AliceLeaves | src/utils/users.js:38-46 | removing alice's connection returns her record and leaves bob as the only member |
| Users.GeneralRoomScenario | src/utils/users.js:8-57 | the whole alice/bob sequence: join, refused case-variant join, second join, leave, with the roster after each step |
| Chat.OnJoin | src/index.js:23-45 | a failed join acknowledges the `addUser` error, emits nothing and keeps the registry; a successful join registers the record `addUser` returns, then sends, in order, the welcome to the joiner alone, the join notice as line 34 builds it to the rest of the room, and `roomData` for the joiner's room to the whole room, and acknowledges with no error |
| Chat.OnJoinIntended | src/index.js:23-45 | the corrected join handler has the same registry, acknowledgement and events as the handler as written, except that the rest of the room receives the SYSTEM join notice |
| Chat.JoinRosterAddsJoiner | src/index.js:24-38 | the roster sent on join is read after insertion: the room's previous roster followed by the joiner |
| Chat.OnSendMessage | src/index.js:47-61 | text the filter flags is acknowledged with "Profanity is not allowed!" and never broadcast; other text produces exactly one `message` from the sender to the sender's whole room and an acknowledgement with no error; the registry is unchanged |
| Chat.OnSendLocation | src/index.js:63-70 | exactly one `locationMessage` from the sender to the sender's whole room, an acknowledgement with no error, and the registry unchanged |
| Chat.OnDisconnect | src/index.js:72-82 | a connection with no record produces no events and leaves the registry unchanged; otherwise the registry is exactly what `removeUser` leaves (its first record spliced out, the others in order), then a SYSTEM leave notice and `roomData` go to that record's room; there is never an acknowledgement |
| Chat.DisconnectRosterExcludesLeaver | src/index.js:73-80 | in a valid registry, the roster sent on disconnect is read after removal: nobody in it has the leaver's name, and it is one entry shorter than before |
| Chat.RemovedIdentityGone | src/utils/users.js:43-45 | with unique pairs, no record left after a splice shares the removed record's room and name |
| Chat.Handle | src/index.js:20-82 | only `join` and `disconnect` can change the registry; an error acknowledgement never comes with an outbound event; only `disconnect` has no acknowledgement |
| Chat.HandleIntended | src/index.js:20-82 | the dispatcher with the corrected join handler leaves the same registry and acknowledgement as the code as written, and emits the same events for every event but a join |
| Chat.HandleKeepsValid | src/index.js:23-82 | every handler keeps the registry invariant |
| Chat.EmitsGoToOwnRoom | src/index.js:31-79 | every room-addressed event goes to the room the handling connection is registered in (after a join) or was registered in (otherwise) |
| Chat.JoinEmitsWithin | src/index.js:31-38 | every room-addressed event of a join goes to a room where the joiner now has a record |
| Chat.SenderInRoom | src/index.js:48-49 | the record `getUser` finds puts its connection in that record's room |
| Chat.JoinNoticeAsWritten | src/index.js:34 | the join notice as written has no text, and its sender field is not "SYSTEM", so it is not a SYSTEM notice |
| Chat.JoinNotice | src/index.js:34 | the corrected join notice is a SYSTEM notice whose text starts with the joiner's name |
| Chat.LeaveNotice | src/index.js:76 | the leave notice is a SYSTEM notice whose text starts with the leaver's name |
| Chat.JoinNoticeAsWrittenIsMalformed | src/index.js:34 | on every successful join, the handler as written sends the rest of the room a chat message that is not a SYSTEM notice and has no text |
| Chat.JoinNoticesAreSystem | src/index.js:33-34 | every chat message the corrected join handler emits is a SYSTEM notice with text |
| Chat.ServerNoticesAreSystem | src/index.js:33-76 | with the corrected join notice (not as line 34 is written), every chat message a join or a disconnect emits is a SYSTEM notice with text |
| Chat.Run | src/index.js:20-82 | processing events one at a time keeps the registry invariant, and a sequence of only message and location events leaves the registry unchanged |
| Chat.RunFromEmptyIsValid | src/index.js:23-82 | starting from an empty registry, any runnable sequence of events leaves records in normal form with no (room, username) pair registered twice |

## Left out

- The Express/HTTP server, static files, `server.listen` and console logging
  (`src/index.js:1-21`, `93-95`) are not modelled. They are not part of the
  registry or the event rules.
- socket.io's transport is not modelled. This covers `socket.join(room)`
  (`src/index.js:31`), connection ids and delivery. Outbound events carry an
  audience tag (sender, room except sender, whole room) instead of a recipient
  set.
- The acknowledgement is recorded in its own field of `Chat.Step`, apart from the
  ordered outbound events. The model therefore does not state that `callback()`
  runs after the emits (`src/index.js:40`, `59`, `69`); with a single event loop
  the order is not observable by the registry.
- The `bad-words` content filter is a foreign library. It is the parameter
  `isProfane` of `Chat.OnSendMessage`.
- `generateMessage` and `generateLocationMessage` live in `src/utils/messages.js`,
  which is not part of this model. Their payloads are records with the sender
  and the text (or URL), and the `createdAt` wall-clock timestamp is omitted.
- The location URL is built from floating-point coordinates
  (`src/index.js:68`). A `SendLocation` event carries the finished URL string.
- A `sendMessage` or `sendLocation` from a connection with no record is not
  modelled. There `getUser` returns `undefined` and `user.room` throws
  (`src/index.js:48-49`, `64-65`). The precondition `Chat.Ready` excludes it.
- A `join` whose `username` or `room` is not a string is not modelled (`trim()`
  would throw). Event fields are strings.
- Normalize.Lower: folds only ASCII `A`..`Z`, because full Unicode case mapping
  is a large table outside the registry's logic. `Normalize.LowerChar` is the
  same.
- Normalize.Trim: its own contract only bounds the length. The full
  characterisation is in `Normalize.TrimSpec`; this keeps proofs that mention
  `Trim` cheap.
- Normalize.Norm: its own contract only bounds the length, for the same reason.
  `Normalize.NormSpec` and `Normalize.NormalIffFixed` characterise it.
- Users.Members: its own contract only bounds the length, so that proofs that
  unfold the filter stay cheap. `Users.MembersCounts` (contents and
  multiplicity) and `Users.MembersOfConcat` (order) characterise it.
- The browser client (`public/js/chat.js`) is not modelled: DOM, templates,
  geolocation and autoscroll.
- Concurrency is not modelled beyond the single event loop. `Chat.Run` processes
  events one at a time to completion, in arrival order.

## Findings

| source | as written | input that shows it | evidently intended | confidence | as-written member | corrected member |
|---|---|---|---|---|---|---|
| src/index.js:34 | the join notice calls `generateMessage` with the notice as its only argument | any successful join, e.g. username "alice": the rest of the room gets a message whose sender is "alice has joined!" and whose text is undefined | a SYSTEM notice with the text "alice has joined!", built like the welcome (line 33) and the leave notice (line 76) | medium, not executed: the message module is not part of this model, and its (username, text) signature is inferred from the other three call sites and from how the client reads `message.username` and `message.text` (public/js/chat.js:48-50) | Chat.JoinNoticeAsWritten, sent by Chat.OnJoin and exhibited at the handler by Chat.JoinNoticeAsWrittenIsMalformed | Chat.JoinNotice, proved a SYSTEM notice with text by Chat.JoinNoticesAreSystem and used by Chat.OnJoinIntended and Chat.HandleIntended |

=== FILE: chat.dfy ===
/**
  The connection event handlers of src/index.js, as pure transitions.  Each
  handler takes the registry, the handling connection's id and the event's
  payload, and returns the registry it leaves behind, how it called the event's
  acknowledgement callback, and the outbound events it emitted, in order, each
  tagged with its audience.
*/
module Chat {
  import opened Wrappers
  import opened Normalize
  import opened Users

  /** The sender name of server-generated notices. */
  const SystemName: string := "SYSTEM"
  const WelcomeText: string := "Welcome! (from the server)"
  const ProfanityError: string := "Profanity is not allowed!"

  /** A `message` event body as `generateMessage(username, text)` builds it, less its
      timestamp.  `text` is None when the caller passes no text argument. */
  datatype Message = Message(username: string, text: Option<string>)

  /** A `locationMessage` event body as `generateLocationMessage(username, url)` builds it,
      less its timestamp. */
  datatype Location = Location(username: string, url: string)

  /** The three outbound event kinds and their payloads. */
  datatype Payload =
    | TextMessage(message: Message)
    | LocationMessage(location: Location)
    | RoomData(room: string, users: Registry)

  /** Who receives an outbound event. */
  datatype Audience =
    | Sender                          // socket.emit
    | RoomExceptSender(room: string)  // socket.broadcast.to(room).emit
    | WholeRoom(room: string)         // io.to(room).emit

  datatype Emit = Emit(to: Audience, payload: Payload)

  /** How the handler called its acknowledgement callback: not at all (disconnect
      has none), or once with an optional error string. */
  datatype Ack = NoAck | Ack(error: Option<string>)

  /** The inbound events.  A location share carries its already formatted map URL. */
  datatype Event =
    | Join(username: string, room: string)
    | SendMessage(text: string)
    | SendLocation(url: string)
    | Disconnect

  /** What one handler invocation leaves behind. */
  datatype Step = Step(users: Registry, ack: Ack, emits: seq<Emit>)

  /** A notice the server sends in its own name. */
  function SystemMessage(text: string): Message {
    Message(SystemName, Some(text))
  }

  predicate IsSystemNotice(m: Message) {
    m.username == SystemName && m.text.Some?
  }

  /** The join notice as src/index.js:34 builds it: `generateMessage` receives the
      notice as its only argument, so the notice lands in the sender field and the
      text is missing.  It is therefore no SYSTEM notice. */
  function JoinNoticeAsWritten(user: User): (m: Message)
    ensures m.text.None?
    ensures m.username != SystemName
    ensures !IsSystemNotice(m)
  {
    var m := Message(user.username + " has joined!", None);
    assert |m.username| >= |" has joined!"|;
    m
  }

  /** The join notice as intended: a SYSTEM notice, like the leave notice, whose text
      starts with the joiner's name. */
  function JoinNotice(user: User): (m: Message)
    ensures IsSystemNotice(m)
    ensures user.username <= m.text.value
  {
    SystemMessage(user.username + " has joined!")
  }

  /** The leave notice of src/index.js:76: a SYSTEM notice whose text starts with the
      leaver's name. */
  function LeaveNotice(user: User): (m: Message)
    ensures IsSystemNotice(m)
    ensures user.username <= m.text.value
  {
    SystemMessage(user.username + " has left!")
  }

  /** The room an emit is addressed to, if it is addressed to a room. */
  function TargetRoom(a: Audience): Option<string> {
    match a
    case Sender => None
    case RoomExceptSender(room) => Some(room)
    case WholeRoom(room) => Some(room)
  }

  /** Connection `id` has a record in `room`. */
  predicate InRoom(users: Registry, id: ConnId, room: string) {
    exists k :: 0 <= k < |users| && users[k].id == id && users[k].room == room
  }

  /** The body of the `join` handler, with the notice for the rest of the room as a
      parameter: register through `addUser`; on failure only acknowledge the error; on
      success welcome the joiner, tell the rest of the room, push the room's roster to
      the whole room, and acknowledge without error. */
  function JoinWith(users: Registry, id: ConnId, username: string, room: string, notice: User -> Message): Step {
    var added := AddUser(users, id, username, room);
    match added.result
    case Failure(error) => Step(users, Ack(Some(error.Text())), [])
    case Success(user) =>
      Step(added.users, Ack(None),
           [Emit(Sender, TextMessage(SystemMessage(WelcomeText))),
            Emit(RoomExceptSender(user.room), TextMessage(notice(user))),
            Emit(WholeRoom(user.room), RoomData(user.room, GetUsersInRoom(added.users, user.room)))])
  }

  /** The `join` handler as written, with the malformed join notice of
      src/index.js:34.  JoinRosterAddsJoiner shows the roster is read after
      insertion. */
  function OnJoin(users: Registry, id: ConnId, username: string, room: string): (s: Step)
    ensures var added := AddUser(users, id, username, room);
            && s.users == added.users
            && (added.result.Failure? ==>
                  s.ack == Ack(Some(added.result.error.Text())) && s.emits == [])
            && (added.result.Success? ==>
                  var u := added.result.value;
                  && s.ack == Ack(None)
                  && |s.emits| == 3
                  && s.emits[0] == Emit(Sender, TextMessage(SystemMessage(WelcomeText)))
                  && s.emits[1] == Emit(RoomExceptSender(u.room), TextMessage(JoinNoticeAsWritten(u)))
                  && s.emits[2].to == WholeRoom(u.room)
                  && s.emits[2].payload.RoomData?
                  && s.emits[2].payload.room == u.room)
  {
    JoinWith(users, id, username, room, JoinNoticeAsWritten)
  }

  /** The `join` handler as intended: it differs from the handler as written only in
      the notice the rest of the room receives, which is the SYSTEM JoinNotice. */
  function OnJoinIntended(users: Registry, id: ConnId, username: string, room: string): (s: Step)
    ensures var w := OnJoin(users, id, username, room);
            && s.users == w.users
            && s.ack == w.ack
            && |s.emits| == |w.emits|
            && (forall k :: 0 <= k < |s.emits| && k != 1 ==> s.emits[k] == w.emits[k])
            && (|s.emits| > 1 ==>
                  s.emits[1] == Emit(w.emits[1].to,
                                     TextMessage(JoinNotice(AddUser(users, id, username, room).result.value))))
  {
    JoinWith(users, id, username, room, JoinNotice)
  }

  /** The roster a successful join pushes is read after insertion: the room's roster
      before the join, followed by the joiner. */
  lemma {:induction false} JoinRosterAddsJoiner(users: Registry, id: ConnId, username: string, room: string)
    requires AddUser(users, id, username, room).result.Success?
    ensures var u := AddUser(users, id, username, room).result.value;
            OnJoin(users, id, username, room).emits[2].payload.users == GetUsersInRoom(users, u.room) + [u]
  {
    var u := AddUser(users, id, username, room).result.value;
    RosterAfterAdd(users, id, username, room, u.room);
    NormIdempotent(room);
  }

  /** The `sendMessage` handler.  The sender must be registered: for an unknown
      connection `getUser` yields `undefined` and the handler throws. */
  function OnSendMessage(users: Registry, id: ConnId, text: string, isProfane: string -> bool): (s: Step)
    requires !Absent(users, id)
    ensures s.users == users
    ensures s.emits == [] <==> isProfane(text)
    ensures isProfane(text) ==> s.ack == Ack(Some(ProfanityError))
    ensures !isProfane(text) ==>
              var u := GetUser(users, id).value;
              && s.ack == Ack(None)
              && s.emits == [Emit(WholeRoom(u.room), TextMessage(Message(u.username, Some(text))))]
  {
    var user := GetUser(users, id).value;
    if isProfane(text) then
      Step(users, Ack(Some(ProfanityError)), [])
    else
      Step(users, Ack(None), [Emit(WholeRoom(user.room), TextMessage(Message(user.username, Some(text))))])
  }

  /** The `sendLocation` handler; like `sendMessage` it needs a registered sender. */
  function OnSendLocation(users: Registry, id: ConnId, url: string): (s: Step)
    requires !Absent(users, id)
    ensures s.users == users
    ensures s.ack == Ack(None)
    ensures var u := GetUser(users, id).value;
            s.emits == [Emit(WholeRoom(u.room), LocationMessage(Location(u.username, url)))]
  {
    var user := GetUser(users, id).value;
    Step(users, Ack(None), [Emit(WholeRoom(user.room), LocationMessage(Location(user.username, url)))])
  }

  /** The `disconnect` handler: remove the connection's record; if there was one,
      announce the departure and push the room's roster, read after removal. */
  function OnDisconnect(users: Registry, id: ConnId): (s: Step)
    ensures s.ack == NoAck
    ensures Absent(users, id) ==> s.users == users && s.emits == []
    ensures !Absent(users, id) ==>
              var u := GetUser(users, id).value;
              && s.users == RemoveUser(users, id).users
              && s.emits == [Emit(WholeRoom(u.room), TextMessage(LeaveNotice(u))),
                             Emit(WholeRoom(u.room), RoomData(u.room, GetUsersInRoom(s.users, u.room)))]
  {
    var removed := RemoveUser(users, id);
    match removed.user
    case None => Step(users, NoAck, [])
    case Some(user) =>
      Step(removed.users, NoAck,
           [Emit(WholeRoom(user.room), TextMessage(LeaveNotice(user))),
            Emit(WholeRoom(user.room), RoomData(user.room, GetUsersInRoom(removed.users, user.room)))])
  }

  /** Events from a connection with no record are handled only if they are `join` or
      `disconnect`; the other two dereference the sender's record. */
  predicate Ready(users: Registry, id: ConnId, event: Event) {
    event.Join? || event.Disconnect? || !Absent(users, id)
  }

  /** Every room-addressed event of `emits` goes to a room in which connection `id`
      has a record of `users`. */
  predicate EmitsWithin(emits: seq<Emit>, users: Registry, id: ConnId) {
    forall k :: 0 <= k < |emits| && TargetRoom(emits[k].to).Some? ==>
      InRoom(users, id, TargetRoom(emits[k].to).value)
  }

  /** Dispatch one inbound event to its handler.  Only `join` and `disconnect` change
      the registry, and an error acknowledgement never comes with an outbound event. */
  function Handle(users: Registry, id: ConnId, event: Event, isProfane: string -> bool): (s: Step)
    requires Ready(users, id, event)
    ensures event.SendMessage? || event.SendLocation? ==> s.users == users
    ensures s.ack.Ack? && s.ack.error.Some? ==> s.emits == []
    ensures event.Disconnect? <==> s.ack.NoAck?
  {
    match event
    case Join(username, room) => OnJoin(users, id, username, room)
    case SendMessage(text) => OnSendMessage(users, id, text, isProfane)
    case SendLocation(url) => OnSendLocation(users, id, url)
    case Disconnect => OnDisconnect(users, id)
  }

  /** Every handler keeps the registry invariant. */
  lemma {:induction false} HandleKeepsValid(users: Registry, id: ConnId, event: Event, isProfane: string -> bool)
    requires Ready(users, id, event)
    ensures Valid(users) ==> Valid(Handle(users, id, event, isProfane).users)
  {
    match event
    case Join(username, room) => AddUserKeepsValid(users, id, username, room);
    case SendMessage(_) =>
    case SendLocation(_) =>
    case Disconnect => RemoveUserKeepsValid(users, id);
  }

  /** Broadcasts reach only the handling connection's own room: after a join, the room
      it was registered in; otherwise the room of the record it had. */
  lemma {:induction false} EmitsGoToOwnRoom(users: Registry, id: ConnId, event: Event, isProfane: string -> bool)
    requires Ready(users, id, event)
    ensures var s := Handle(users, id, event, isProfane);
            if event.Join? then EmitsWithin(s.emits, s.users, id) else EmitsWithin(s.emits, users, id)
  {
    match event
    case Join(username, room) => JoinEmitsWithin(users, id, username, room);
    case SendMessage(_) => SenderInRoom(users, id);
    case SendLocation(_) => SenderInRoom(users, id);
    case Disconnect => SenderInRoom(users, id);
  }

  lemma {:induction false} JoinEmitsWithin(users: Registry, id: ConnId, username: string, room: string)
    ensures var s := OnJoin(users, id, username, room);
            EmitsWithin(s.emits, s.users, id)
  {
    var added := AddUser(users, id, username, room);
    var s := OnJoin(users, id, username, room);
    if added.result.Success? {
      var u := added.result.value;
      assert InRoom(s.users, id, u.room) by {
        assert s.users[|users|] == u;
      }
      assert TargetRoom(s.emits[0].to).None?;
      assert TargetRoom(s.emits[1].to) == Some(u.room);
      assert TargetRoom(s.emits[2].to) == Some(u.room);
    }
  }

  /** The record `getUser` finds places its connection in that record's room. */
  lemma SenderInRoom(users: Registry, id: ConnId)
    ensures !Absent(users, id) ==> InRoom(users, id, GetUser(users, id).value.room)
  {
    if !Absent(users, id) {
      var r := GetUser(users, id);
      var i := IndexOfId(users, id);
      assert users[i].id == id && users[i].room == r.value.room;
    }
  }

  /** The roster pushed after a disconnect is read after removal: it no longer holds
      the leaver (nobody else in the room has that name), and it is one entry shorter
      than the room's roster before. */
  lemma {:induction false} DisconnectRosterExcludesLeaver(users: Registry, id: ConnId)
    requires Valid(users)
    requires !Absent(users, id)
    ensures var u := GetUser(users, id).value;
            var roster := OnDisconnect(users, id).emits[1].payload.users;
            && (forall k :: 0 <= k < |roster| ==> roster[k].username != u.username)
            && |roster| == |GetUsersInRoom(users, u.room)| - 1
  {
    var i := IndexOfId(users, id);
    var u := users[i];
    var rest := users[..i] + users[i + 1..];
    assert Norm(u.room) == u.room by {
      NormalIffFixed(u.room);
    }
    var roster := GetUsersInRoom(rest, u.room);
    forall k | 0 <= k < |roster|
      ensures roster[k].username != u.username
    {
      MemberIsRegistered(rest, u.room, roster[k]);
      RemovedIdentityGone(users, i, roster[k]);
    }
    RosterAfterRemove(users, id, u.room);
  }

  /** With unique identities, no record left after removing position `i` shares the
      removed record's room and name. */
  lemma {:induction false} RemovedIdentityGone(users: Registry, i: nat, v: User)
    requires UniqueIdentities(users)
    requires i < |users|
    requires v in users[..i] + users[i + 1..]
    ensures v.room == users[i].room ==> v.username != users[i].username
  {
    var rest := users[..i] + users[i + 1..];
    var j :| 0 <= j < |rest| && rest[j] == v;
    var j' := if j < i then j else j + 1;
    assert users[j'] == v;
    if j' < i {
      assert !HasIdentity(users[j'], users[i].username, users[i].room);
    } else {
      assert !HasIdentity(users[i], users[j'].username, users[j'].room);
    }
  }

  /** On every successful join, the handler as written sends the rest of the room a
      chat message that is no SYSTEM notice: it has no text, and its sender field
      holds the notice. */
  lemma {:induction false} JoinNoticeAsWrittenIsMalformed(users: Registry, id: ConnId, username: string, room: string)
    requires AddUser(users, id, username, room).result.Success?
    ensures var s := OnJoin(users, id, username, room);
            && s.emits[1].payload.TextMessage?
            && !IsSystemNotice(s.emits[1].payload.message)
            && s.emits[1].payload.message.text.None?
  {
    var u := AddUser(users, id, username, room).result.value;
    var m := JoinNoticeAsWritten(u);
    assert !IsSystemNotice(m) && m.text.None?;
  }

  /** The dispatcher with the corrected join handler: the same registry and
      acknowledgement as the code as written, and the same events for everything but
      a join. */
  function HandleIntended(users: Registry, id: ConnId, event: Event, isProfane: string -> bool): (s: Step)
    requires Ready(users, id, event)
    ensures var w := Handle(users, id, event, isProfane);
            && s.users == w.users
            && s.ack == w.ack
            && (!event.Join? ==> s == w)
  {
    match event
    case Join(username, room) => OnJoinIntended(users, id, username, room)
    case _ => Handle(users, id, event, isProfane)
  }

  /** With the corrected join notice, every chat message the server originates on a
      join or a disconnect is a SYSTEM notice with text. */
  lemma {:induction false} ServerNoticesAreSystem(users: Registry, id: ConnId, event: Event, isProfane: string -> bool)
    requires event.Join? || event.Disconnect?
    ensures var s := HandleIntended(users, id, event, isProfane);
            forall k :: 0 <= k < |s.emits| && s.emits[k].payload.TextMessage? ==>
              IsSystemNotice(s.emits[k].payload.message)
  {
    if event.Join? {
      JoinNoticesAreSystem(users, id, event.username, event.room);
    }
  }

  /** Every chat message the corrected join handler emits is a SYSTEM notice. */
  lemma {:induction false} JoinNoticesAreSystem(users: Registry, id: ConnId, username: string, room: string)
    ensures var s := OnJoinIntended(users, id, username, room);
            forall k :: 0 <= k < |s.emits| && s.emits[k].payload.TextMessage? ==>
              IsSystemNotice(s.emits[k].payload.message)
  {
    var s := OnJoinIntended(users, id, username, room);
    forall k | 0 <= k < |s.emits| && s.emits[k].payload.TextMessage?
      ensures IsSystemNotice(s.emits[k].payload.message)
    {
      assert k < 2;
    }
  }

  /** One connection's event, as the single event loop receives it. */
  datatype Delivery = Delivery(from: ConnId, event: Event)

  /** Every event of `trace` is one its handler can run, in the registry the events
      before it leave behind. */
  predicate Runnable(users: Registry, trace: seq<Delivery>, isProfane: string -> bool)
    decreases |trace|
  {
    |trace| == 0 ||
    (Ready(users, trace[0].from, trace[0].event) &&
     Runnable(Handle(users, trace[0].from, trace[0].event, isProfane).users, trace[1..], isProfane))
  }

  /** The registry after handling `trace` in order, one event at a time to completion. */
  function Run(users: Registry, trace: seq<Delivery>, isProfane: string -> bool): (r: Registry)
    requires Runnable(users, trace, isProfane)
    ensures Valid(users) ==> Valid(r)
    ensures (forall k :: 0 <= k < |trace| ==> trace[k].event.SendMessage? || trace[k].event.SendLocation?) ==> r == users
    decreases |trace|
  {
    if |trace| == 0 then users
    else
      HandleKeepsValid(users, trace[0].from, trace[0].event, isProfane);
      Run(Handle(users, trace[0].from, trace[0].event, isProfane).users, trace[1..], isProfane)
  }

  /** From a fresh registry, any runnable sequence of events leaves every record in
      normal form and no (room, username) pair registered twice. */
  lemma RunFromEmptyIsValid(trace: seq<Delivery>, isProfane: string -> bool)
    requires Runnable([], trace, isProfane)
    ensures Valid(Run([], trace, isProfane))
  {
  }
}

=== FILE: normalize.dfy ===
/**
  The clean-up applied to user names and room names before they are stored or
  compared: `s.trim().toLowerCase()`.

  Trimming strips exactly the characters ECMAScript's `String.prototype.trim`
  strips (WhiteSpace and LineTerminator code points).  Lower-casing folds the
  ASCII letters `A`..`Z` only.
*/
module Normalize {

  /** The code points `String.prototype.trim` removes from either end. */
  predicate IsSpace(c: char) {
    || c == '\t' || c == '\n' || c == '\U{000B}' || c == '\U{000C}' || c == '\r'
    || c == ' ' || c == '\U{00A0}' || c == '\U{1680}'
    || ('\U{2000}' <= c <= '\U{200A}')
    || c == '\U{2028}' || c == '\U{2029}' || c == '\U{202F}' || c == '\U{205F}'
    || c == '\U{3000}' || c == '\U{FEFF}'
  }

  predicate IsUpper(c: char) {
    'A' <= c <= 'Z'
  }

  /** True iff every character of `s` is trimmable whitespace (vacuously for the empty string). */
  predicate Blank(s: string) {
    forall k :: 0 <= k < |s| ==> IsSpace(s[k])
  }

  /** `r` is the slice of `s` starting at `i`, and only whitespace lies outside it. */
  predicate SliceBetweenSpaces(s: string, i: nat, r: string) {
    && i + |r| <= |s|
    && r == s[i..i + |r|]
    && (forall k :: 0 <= k < i ==> IsSpace(s[k]))
    && (forall k :: i + |r| <= k < |s| ==> IsSpace(s[k]))
  }

  /** Number of whitespace characters at the front of `s`. */
  function LeadingSpaces(s: string): (n: nat)
    ensures n <= |s|
    ensures forall k :: 0 <= k < n ==> IsSpace(s[k])
    ensures n < |s| ==> !IsSpace(s[n])
  {
    if |s| == 0 || !IsSpace(s[0]) then 0 else 1 + LeadingSpaces(s[1..])
  }

  /** Number of whitespace characters at the back of `s`. */
  function TrailingSpaces(s: string): (n: nat)
    ensures n <= |s|
    ensures forall k :: |s| - n <= k < |s| ==> IsSpace(s[k])
    ensures n < |s| ==> !IsSpace(s[|s| - 1 - n])
  {
    if |s| == 0 || !IsSpace(s[|s| - 1]) then 0 else 1 + TrailingSpaces(s[..|s| - 1])
  }

  /** `s.trim()`: `s` without its leading and trailing whitespace (see TrimSpec). */
  function Trim(s: string): (r: string)
    ensures |r| <= |s|
  {
    var i := LeadingSpaces(s);
    if i == |s| then [] else s[i..|s| - TrailingSpaces(s)]
  }

  /** The trim of `s` is a slice of `s` with only whitespace cut away on either side,
      and it neither starts nor ends with whitespace; it is empty exactly when `s` is
      all whitespace. */
  lemma TrimSpec(s: string)
    ensures Trim(s) == [] <==> Blank(s)
    ensures Trim(s) != [] ==> !IsSpace(Trim(s)[0]) && !IsSpace(Trim(s)[|Trim(s)| - 1])
    ensures exists i :: SliceBetweenSpaces(s, i, Trim(s))
  {
    var i := LeadingSpaces(s);
    if i == |s| {
      assert SliceBetweenSpaces(s, 0, []);
    } else {
      var j := |s| - TrailingSpaces(s);
      assert SliceBetweenSpaces(s, i, s[i..j]);
    }
  }

  /** ASCII `toLowerCase` of one character. */
  function LowerChar(c: char): (r: char)
    ensures !IsUpper(r)
    ensures !IsUpper(c) ==> r == c
    ensures IsUpper(c) ==> r as int == c as int + 32
  {
    if IsUpper(c) then (c as int + 32) as char else c
  }

  /** `s.toLowerCase()`, folding ASCII letters only: each character is folded in place. */
  function Lower(s: string): (r: string)
    ensures |r| == |s|
  {
    seq(|s|, k requires 0 <= k < |s| => LowerChar(s[k]))
  }

  /** `s.trim().toLowerCase()`: the canonical spelling of a user name or room name. */
  function Norm(s: string): (r: string)
    ensures |r| <= |s|
  {
    Lower(Trim(s))
  }

  /** `s` is in normal form: no whitespace at either end, no upper-case ASCII letter. */
  predicate IsNormal(s: string) {
    && (s != [] ==> !IsSpace(s[0]) && !IsSpace(s[|s| - 1]))
    && forall k :: 0 <= k < |s| ==> !IsUpper(s[k])
  }

  /** Normalising yields a normal form, and the empty string exactly for blank input
      (so "   " is as empty as ""). */
  lemma NormSpec(s: string)
    ensures Norm(s) == [] <==> Blank(s)
    ensures IsNormal(Norm(s))
  {
    TrimSpec(s);
  }

  /** The normal forms are exactly the strings normalisation leaves alone. */
  lemma {:induction false} NormalIffFixed(s: string)
    ensures IsNormal(s) <==> Norm(s) == s
  {
    if IsNormal(s) {
      TrimOfTrimmed(s);
      LowerOfLower(s);
    } else {
      NormSpec(s);
    }
  }

  /** A string that has no whitespace at its ends is its own trim. */
  lemma {:induction false} TrimOfTrimmed(s: string)
    requires s != [] ==> !IsSpace(s[0]) && !IsSpace(s[|s| - 1])
    ensures Trim(s) == s
  {
    if s != [] {
      assert LeadingSpaces(s) == 0;
      assert TrailingSpaces(s) == 0;
      assert s[0..|s|] == s;
    }
  }

  /** A string with no upper-case letter is its own lower-case form. */
  lemma {:induction false} LowerOfLower(s: string)
    requires forall k :: 0 <= k < |s| ==> !IsUpper(s[k])
    ensures Lower(s) == s
  {
  }

  /** Normalising twice is normalising once. */
  lemma {:induction false} NormIdempotent(s: string)
    ensures Norm(Norm(s)) == Norm(s)
  {
    NormSpec(s);
    NormalIffFixed(Norm(s));
  }

  /** Surrounding whitespace and letter case do not matter: " Bob " and "bob" are one name. */
  lemma PaddedCapitalisedName()
    ensures Norm(" Bob ") == Norm("bob") == "bob"
  {
    assert LeadingSpaces(" Bob ") == 1;
    assert TrailingSpaces(" Bob ") == 1;
    assert Trim(" Bob ") == "Bob";
    assert Lower("Bob") == "bob";
    TrimOfTrimmed("bob");
    assert Lower("bob") == "bob";
  }

  /** "Room1" and "room1" are one room. */
  lemma CapitalisedRoom()
    ensures Norm("Room1") == Norm("room1") == "room1"
  {
    TrimOfTrimmed("Room1");
    assert Lower("Room1") == "room1";
    TrimOfTrimmed("room1");
    assert Lower("room1") == "room1";
  }
}

=== FILE: users.dfy ===
/**
  The membership registry of src/utils/users.js: an ordered list of
  `{ id, username, room }` records, modelled as an immutable sequence.  Each
  operation takes the registry and returns the registry it leaves behind
  together with what the JavaScript function returns.
*/
module Users {
  import opened Wrappers
  import opened Normalize

  /** The transport's connection identifier (`socket.id`). */
  type ConnId = string

  /** One registered participant; `username` and `room` are stored normalised. */
  datatype User = User(id: ConnId, username: string, room: string)

  /** The module-level `users` array, in insertion order. */
  type Registry = seq<User>

  /** Why `addUser` refused a participant. */
  datatype AddError = Required | InUse {
    /** The `error` string `addUser` returns; the two refusals read differently. */
    function Text(): (r: string)
      ensures Required? <==> r == "Username and room are required."
      ensures InUse? <==> r == "Username is in use."
    {
      match this
      case Required => "Username and room are required."
      case InUse => "Username is in use."
    }
  }

  /** The registry after `addUser`, and its `{ user }` / `{ error }` answer. */
  datatype Added = Added(users: Registry, result: Result<User, AddError>)

  /** The registry after `removeUser`, and the removed record (None for `undefined`). */
  datatype Removed = Removed(users: Registry, user: Option<User>)

  predicate HasIdentity(u: User, username: string, room: string) {
    u.room == room && u.username == username
  }

  /** Registry invariant: no two records share a (room, username) pair. */
  predicate UniqueIdentities(users: Registry) {
    forall i, j :: 0 <= i < j < |users| ==> !HasIdentity(users[i], users[j].username, users[j].room)
  }

  /** Every record holds its name and room in normal form, as `addUser` stores them. */
  predicate Canonical(users: Registry) {
    forall k :: 0 <= k < |users| ==>
      users[k].username != [] && IsNormal(users[k].username) && users[k].room != [] && IsNormal(users[k].room)
  }

  /** The registry invariant: records in normal form, no (room, username) pair twice. */
  predicate Valid(users: Registry) {
    Canonical(users) && UniqueIdentities(users)
  }

  /** Some record already carries this (room, username) pair. */
  predicate Taken(users: Registry, username: string, room: string) {
    exists k :: 0 <= k < |users| && HasIdentity(users[k], username, room)
  }

  /** No record carries connection `id`. */
  predicate Absent(users: Registry, id: ConnId) {
    forall k :: 0 <= k < |users| ==> users[k].id != id
  }

  /** At most one record per connection.  `addUser` does not enforce this. */
  predicate UniqueIds(users: Registry) {
    forall i, j :: 0 <= i < j < |users| ==> users[i].id != users[j].id
  }

  /** `i` is the position of the first record for connection `id`. */
  predicate FirstWithId(users: Registry, id: ConnId, i: int) {
    0 <= i < |users| && users[i].id == id && forall k :: 0 <= k < i ==> users[k].id != id
  }

  /** `users.find(u => u.room === room && u.username === username)`. */
  function FindIdentity(users: Registry, username: string, room: string): (r: Option<User>)
    ensures r.Some? ==> r.value in users && HasIdentity(r.value, username, room)
    ensures r.None? <==> !Taken(users, username, room)
  {
    if |users| == 0 then None
    else if HasIdentity(users[0], username, room) then Some(users[0])
    else
      var r := FindIdentity(users[1..], username, room);
      assert r.None? ==> forall k :: 1 <= k < |users| ==> users[k] == users[1..][k - 1];
      r
  }

  /** `users.findIndex(u => u.id === id)`: the first position holding `id`, or -1. */
  function IndexOfId(users: Registry, id: ConnId): (r: int)
    ensures r == -1 <==> Absent(users, id)
    ensures r != -1 ==> FirstWithId(users, id, r)
  {
    if |users| == 0 then -1
    else if users[0].id == id then 0
    else
      var r := IndexOfId(users[1..], id);
      assert r == -1 ==> forall k :: 1 <= k < |users| ==> users[k] == users[1..][k - 1];
      if r == -1 then -1 else r + 1
  }

  /** `addUser({ id, username, room })`: normalise, validate, reject a taken identity,
      otherwise append. */
  function AddUser(users: Registry, id: ConnId, username: string, room: string): (out: Added)
    ensures out.result.Failure? ==> out.users == users
    ensures out.result == Failure(Required) <==> Norm(username) == [] || Norm(room) == []
    ensures out.result == Failure(InUse) <==>
              Norm(username) != [] && Norm(room) != [] && Taken(users, Norm(username), Norm(room))
    ensures out.result.Success? ==>
              && out.users == users + [out.result.value]
              && out.result.value.id == id
              && out.result.value.username == Norm(username)
              && out.result.value.room == Norm(room)
  {
    var name := Norm(username);
    var place := Norm(room);
    if name == [] || place == [] then
      Added(users, Failure(Required))
    else if FindIdentity(users, name, place).Some? then
      Added(users, Failure(InUse))
    else
      var user := User(id, name, place);
      Added(users + [user], Success(user))
  }

  /** A name or room that is empty or only whitespace is refused with "Username and
      room are required." and the registry is left as it was. */
  lemma AddUserRejectsBlank(users: Registry, id: ConnId, username: string, room: string)
    ensures var out := AddUser(users, id, username, room);
            (out.result == Failure(Required) <==> Blank(username) || Blank(room))
            && (out.result == Failure(Required) ==> out.users == users)
  {
    NormSpec(username);
    NormSpec(room);
  }

  /** `removeUser(id)`: splice out the first record for `id` and return it. */
  function RemoveUser(users: Registry, id: ConnId): (out: Removed)
    ensures out.user.None? <==> Absent(users, id)
    ensures out.user.None? ==> out.users == users
    ensures out.user.Some? ==>
              exists i :: FirstWithId(users, id, i)
                       && users[i] == out.user.value
                       && out.users == users[..i] + users[i + 1..]
  {
    var index := IndexOfId(users, id);
    if index == -1 then
      Removed(users, None)
    else
      assert FirstWithId(users, id, index);
      Removed(users[..index] + users[index + 1..], Some(users[index]))
  }

  /** `getUser(id)`: the first record for `id`, or None. */
  function GetUser(users: Registry, id: ConnId): (r: Option<User>)
    ensures r.None? <==> Absent(users, id)
    ensures r.Some? ==> exists i :: FirstWithId(users, id, i) && users[i] == r.value
  {
    var index := IndexOfId(users, id);
    if index == -1 then None else Some(users[index])
  }

  /** The records of `users` whose room is exactly `place`, in registry order. */
  function Members(users: Registry, place: string): (r: Registry)
    ensures |r| <= |users|
  {
    if |users| == 0 then []
    else (if users[0].room == place then [users[0]] else []) + Members(users[1..], place)
  }

  /** `getUsersInRoom(room)`.  The filter callback reassigns `room` to its normalised
      form on every element, so the query is re-normalised at each step; because
      normalising is idempotent the result is the members of the normalised room. */
  function GetUsersInRoom(users: Registry, room: string): (r: Registry)
    ensures r == Members(users, Norm(room))
  {
    if |users| == 0 then []
    else
      var place := Norm(room);
      NormIdempotent(room);
      (if users[0].room == place then [users[0]] else []) + GetUsersInRoom(users[1..], place)
  }

  /** Every record whose room is `place` is a member, as often as it is registered,
      and no other record is. */
  lemma {:induction false} MembersCounts(users: Registry, place: string)
    ensures forall u :: multiset(Members(users, place))[u]
                          == if u.room == place then multiset(users)[u] else 0
  {
    if |users| > 0 {
      MembersCounts(users[1..], place);
      assert users == [users[0]] + users[1..];
    }
  }

  /** A member of `place` is a registered record whose room is `place`. */
  lemma MemberIsRegistered(users: Registry, place: string, v: User)
    requires v in Members(users, place)
    ensures v in users && v.room == place
  {
    MembersCounts(users, place);
    assert multiset(Members(users, place))[v] > 0;
  }

  /** Membership keeps insertion order: the members of a concatenation are the
      members of each part, concatenated. */
  lemma {:induction false} MembersOfConcat(a: Registry, b: Registry, place: string)
    ensures Members(a + b, place) == Members(a, place) + Members(b, place)
  {
    if |a| == 0 {
      assert a + b == b;
    } else {
      var head := if a[0].room == place then [a[0]] else [];
      assert (a + b)[0] == a[0];
      assert (a + b)[1..] == a[1..] + b;
      MembersOfConcat(a[1..], b, place);
      assert Members(a + b, place) == head + (Members(a[1..], place) + Members(b, place));
      assert Members(a, place) == head + Members(a[1..], place);
    }
  }


  /** After a successful `addUser` the new record is the last member of its room's roster,
      and every other roster is unchanged. */
  lemma {:induction false} RosterAfterAdd(users: Registry, id: ConnId, username: string, room: string, query: string)
    requires AddUser(users, id, username, room).result.Success?
    ensures var u := AddUser(users, id, username, room).result.value;
            GetUsersInRoom(AddUser(users, id, username, room).users, query)
              == GetUsersInRoom(users, query) + (if u.room == Norm(query) then [u] else [])
  {
    var u := AddUser(users, id, username, room).result.value;
    MembersOfConcat(users, [u], Norm(query));
  }

  /** After a successful `removeUser` the roster of the removed record's room has one
      entry fewer, and every other roster keeps its size. */
  lemma {:induction false} RosterAfterRemove(users: Registry, id: ConnId, query: string)
    requires RemoveUser(users, id).user.Some?
    ensures var u := RemoveUser(users, id).user.value;
            |GetUsersInRoom(RemoveUser(users, id).users, query)|
              == |GetUsersInRoom(users, query)| - (if u.room == Norm(query) then 1 else 0)
  {
    var out := RemoveUser(users, id);
    var u := out.user.value;
    var i := IndexOfId(users, id);
    var place := Norm(query);
    assert users == users[..i] + ([u] + users[i + 1..]);
    MembersOfConcat(users[..i], [u] + users[i + 1..], place);
    MembersOfConcat([u], users[i + 1..], place);
    MembersOfConcat(users[..i], users[i + 1..], place);
  }

  /** `addUser` keeps (room, username) pairs unique. */
  lemma {:induction false} AddUserKeepsUnique(users: Registry, id: ConnId, username: string, room: string)
    requires UniqueIdentities(users)
    ensures UniqueIdentities(AddUser(users, id, username, room).users)
  {
    var out := AddUser(users, id, username, room);
    if out.result.Success? {
      var u := out.result.value;
      forall i, j | 0 <= i < j < |out.users|
        ensures !HasIdentity(out.users[i], out.users[j].username, out.users[j].room)
      {
        if j == |users| {
          assert out.users[j] == u;
          assert out.users[i] == users[i];
          assert !Taken(users, u.username, u.room);
        } else {
          assert out.users[i] == users[i] && out.users[j] == users[j];
        }
      }
    }
  }

  /** Removing a record from a registry leaves the remaining records pairwise as they were. */
  lemma {:induction false} RemoveAtKeepsUnique(users: Registry, i: nat)
    requires i < |users|
    requires UniqueIdentities(users)
    ensures UniqueIdentities(users[..i] + users[i + 1..])
  {
    var rest := users[..i] + users[i + 1..];
    forall a, b | 0 <= a < b < |rest|
      ensures !HasIdentity(rest[a], rest[b].username, rest[b].room)
    {
      var a' := if a < i then a else a + 1;
      var b' := if b < i then b else b + 1;
      assert rest[a] == users[a'] && rest[b] == users[b'];
    }
  }

  /** `removeUser` keeps (room, username) pairs unique. */
  lemma {:induction false} RemoveUserKeepsUnique(users: Registry, id: ConnId)
    requires UniqueIdentities(users)
    ensures UniqueIdentities(RemoveUser(users, id).users)
  {
    var out := RemoveUser(users, id);
    if out.user.Some? {
      var i := IndexOfId(users, id);
      RemoveAtKeepsUnique(users, i);
    }
  }

  /** `removeUser` removes exactly the record `getUser` would have found. */
  lemma RemoveTakesWhatGetFinds(users: Registry, id: ConnId)
    ensures RemoveUser(users, id).user == GetUser(users, id)
  {
  }

  /** Connection `id` holds at most one record; other connections may hold several. */
  predicate AtMostOnce(users: Registry, id: ConnId) {
    forall i, j :: 0 <= i < j < |users| && users[i].id == id ==> users[j].id != id
  }

  /** `getUser` finds nothing once `removeUser` has run for a connection exactly when
      that connection held at most one record. */
  lemma {:induction false} GetAfterRemove(users: Registry, id: ConnId)
    ensures GetUser(RemoveUser(users, id).users, id).None? <==> AtMostOnce(users, id)
  {
    if AtMostOnce(users, id) {
      RemoveClearsSingle(users, id);
    } else {
      var a, b :| 0 <= a < b < |users| && users[a].id == id && users[b].id == id;
      RemoveLeavesSecond(users, id, a, b);
    }
  }

  /** Removing the only record of a connection leaves it with none. */
  lemma {:induction false} RemoveClearsSingle(users: Registry, id: ConnId)
    requires AtMostOnce(users, id)
    ensures Absent(RemoveUser(users, id).users, id)
  {
    var out := RemoveUser(users, id);
    if out.user.Some? {
      var i := IndexOfId(users, id);
      forall k | 0 <= k < |out.users|
        ensures out.users[k].id != id
      {
        if k < i {
          assert out.users[k] == users[k];
        } else {
          assert out.users[k] == users[k + 1];
        }
      }
    }
  }

  /** When a connection holds records at `a` and `b`, the one at `b` survives the
      removal of the first. */
  lemma {:induction false} RemoveLeavesSecond(users: Registry, id: ConnId, a: nat, b: nat)
    requires a < b < |users| && users[a].id == id && users[b].id == id
    ensures !Absent(RemoveUser(users, id).users, id)
  {
    var out := RemoveUser(users, id);
    var i := IndexOfId(users, id);
    assert i <= a;
    assert out.users[b - 1] == users[b];
  }

  /** `addUser` never looks at `id`: a free, non-blank name is accepted even from a
      connection that already holds a record, which then holds two. */
  lemma {:induction false} AddUserAcceptsRepeatedId(users: Registry, id: ConnId, username: string, room: string)
    requires Norm(username) != [] && Norm(room) != [] && !Taken(users, Norm(username), Norm(room))
    requires !Absent(users, id)
    ensures AddUser(users, id, username, room).result.Success?
    ensures !UniqueIds(AddUser(users, id, username, room).users)
  {
    var out := AddUser(users, id, username, room);
    var k :| 0 <= k < |users| && users[k].id == id;
    assert out.users[k] == users[k] && out.users[|users|].id == id;
  }

  /** Without one record per connection, the record `removeUser` leaves behind is still
      found by `getUser`. */
  lemma RepeatedIdOutlivesRemove()
    ensures var users := [User("c1", "alice", "general"), User("c1", "bob", "general")];
            GetUser(RemoveUser(users, "c1").users, "c1") == Some(User("c1", "bob", "general"))
  {
    var users := [User("c1", "alice", "general"), User("c1", "bob", "general")];
    assert IndexOfId(users, "c1") == 0;
    assert users[..0] + users[1..] == [User("c1", "bob", "general")];
  }

  /** Two spellings with the same normal form are one identity: once the first is
      registered, the second is refused as "Username is in use." */
  lemma {:induction false} SameSpellingConflicts(users: Registry, id1: ConnId, name1: string, room1: string,
                                                 id2: ConnId, name2: string, room2: string)
    requires Norm(name1) == Norm(name2) && Norm(room1) == Norm(room2)
    requires AddUser(users, id1, name1, room1).result.Success?
    ensures AddUser(AddUser(users, id1, name1, room1).users, id2, name2, room2).result == Failure(InUse)
  {
    var first := AddUser(users, id1, name1, room1);
    assert first.users[|users|] == first.result.value;
    assert HasIdentity(first.users[|users|], Norm(name2), Norm(room2));
  }

  /** " Bob " in "Room1" and "bob" in "room1" are the same participant. */
  lemma PaddedNameConflicts(users: Registry)
    requires AddUser(users, "c1", " Bob ", "Room1").result.Success?
    ensures AddUser(AddUser(users, "c1", " Bob ", "Room1").users, "c2", "bob", "room1").result == Failure(InUse)
  {
    PaddedCapitalisedName();
    CapitalisedRoom();
    SameSpellingConflicts(users, "c1", " Bob ", "Room1", "c2", "bob", "room1");
  }

  /** `addUser` keeps the registry invariant. */
  lemma {:induction false} AddUserKeepsValid(users: Registry, id: ConnId, username: string, room: string)
    ensures Valid(users) ==> Valid(AddUser(users, id, username, room).users)
  {
    var out := AddUser(users, id, username, room);
    if Valid(users) && out.result.Success? {
      AddUserKeepsUnique(users, id, username, room);
      var u := out.result.value;
      NormSpec(username);
      NormSpec(room);
      AppendKeepsCanonical(users, u);
    }
  }

  /** Appending a record in normal form keeps the registry in normal form. */
  lemma AppendKeepsCanonical(users: Registry, u: User)
    requires Canonical(users)
    requires u.username != [] && IsNormal(u.username) && u.room != [] && IsNormal(u.room)
    ensures Canonical(users + [u])
  {
  }

  /** Removing a record keeps the others in normal form. */
  lemma {:induction false} RemoveAtKeepsCanonical(users: Registry, i: nat)
    requires i < |users|
    requires Canonical(users)
    ensures Canonical(users[..i] + users[i + 1..])
  {
    var rest := users[..i] + users[i + 1..];
    forall k | 0 <= k < |rest|
      ensures rest[k].username != [] && IsNormal(rest[k].username) && rest[k].room != [] && IsNormal(rest[k].room)
    {
      assert rest[k] == users[if k < i then k else k + 1];
    }
  }

  /** `removeUser` keeps the registry invariant. */
  lemma {:induction false} RemoveUserKeepsValid(users: Registry, id: ConnId)
    ensures Valid(users) ==> Valid(RemoveUser(users, id).users)
  {
    var out := RemoveUser(users, id);
    if Valid(users) && out.user.Some? {
      var i := IndexOfId(users, id);
      RemoveAtKeepsCanonical(users, i);
      RemoveAtKeepsUnique(users, i);
    }
  }

  /** A lower-case word without whitespace is its own normal form. */
  lemma LowerWordIsNormal(s: string)
    requires forall k :: 0 <= k < |s| ==> 'a' <= s[k] <= 'z'
    ensures Norm(s) == s
  {
    NormalIffFixed(s);
  }

  /** "ALICE" and "General" fold to "alice" and "general". */
  lemma CapitalisedSpellings()
    ensures Norm("ALICE") == "alice" && Norm("General") == "general"
  {
    TrimOfTrimmed("ALICE");
    assert Lower("ALICE") == "alice";
    TrimOfTrimmed("General");
    assert Lower("General") == "general";
  }

  const Alice := User("c1", "alice", "general")
  const Bob := User("c2", "bob", "general")

  lemma AliceJoins()
    ensures AddUser([], "c1", "alice", "general") == Added([Alice], Success(Alice))
    ensures GetUsersInRoom([Alice], "general") == [Alice]
  {
    LowerWordIsNormal("alice");
    LowerWordIsNormal("general");
  }

  lemma AliceTwiceRefused()
    ensures AddUser([Alice], "c2", "ALICE", "General").result == Failure(InUse)
  {
    CapitalisedSpellings();
    assert HasIdentity([Alice][0], "alice", "general");
  }

  lemma BobJoins()
    ensures AddUser([Alice], "c2", "bob", "general") == Added([Alice, Bob], Success(Bob))
    ensures GetUsersInRoom([Alice, Bob], "general") == [Alice, Bob]
  {
    LowerWordIsNormal("bob");
    LowerWordIsNormal("general");
    assert FindIdentity([Alice], "bob", "general").None? by {
      assert !HasIdentity(Alice, "bob", "general");
    }
    assert [Alice, Bob][1..] == [Bob];
  }

  lemma AliceLeaves()
    ensures RemoveUser([Alice, Bob], "c1") == Removed([Bob], Some(Alice))
    ensures GetUsersInRoom([Bob], "general") == [Bob]
  {
    LowerWordIsNormal("general");
    assert IndexOfId([Alice, Bob], "c1") == 0;
    assert [Alice, Bob][..0] + [Alice, Bob][1..] == [Bob];
  }

  /** alice joins "general" and is its only member; "ALICE" in "General" is refused
      as the same identity; bob joins after alice; when alice's connection leaves,
      bob alone remains. */
  lemma GeneralRoomScenario()
    ensures var first := AddUser([], "c1", "alice", "general");
            var second := AddUser(first.users, "c2", "bob", "general");
            && first.result == Success(Alice)
            && GetUsersInRoom(first.users, "general") == [Alice]
            && AddUser(first.users, "c2", "ALICE", "General").result == Failure(InUse)
            && second.result == Success(Bob)
            && GetUsersInRoom(second.users, "general") == [Alice, Bob]
            && GetUsersInRoom(RemoveUser(second.users, "c1").users, "general") == [Bob]
  {
    AliceJoins();
    AliceTwiceRefused();
    BobJoins();
    AliceLeaves();
  }
}

=== FILE: wrappers.dfy ===
/** Failure-compatible wrappers shared by the registry and the event handlers. */
module Wrappers {

  /** A value that may be absent: JavaScript's `undefined` result of a failed lookup. */
  datatype Option<+T> = None | Some(value: T)

  /** Either a value or an error, as `{ user }` / `{ error }` objects are returned by the registry. */
  datatype Result<+R, +E> = Success(value: R) | Failure(error: E)
}
